=== FILE: README.md ===
# Event detection of the vision node, modelled in Dafny

The vision node watches a child through a camera and publishes discrete
events: gaze direction, smile, head-size change, novelty and movement. The
node works frame by frame. Each detected face yields landmark points. From
these it derives two head-pose ratios, an integer head size and the four mouth
points. Debounce counters, a dead-band and an exponential moving average
(EMA) turn these into events. Separately, optical flow between frames is
summed into a movement figure.

This project models that detection logic in `src/vision.cpp` as pure
functions over one explicit state record. The source keeps this state in
globals. The modules are:

- `Geometry` models `get_line_intersection` over the reals. A zero
  denominator gives an explicit `Degenerate` outcome.
- `Debounce` is the shared 0..5 counter pattern. A counter counts qualifying
  frames and fires when the count exceeds 5.
- `Gaze` models `lookAt`: the degree rescale, the +-0.3 thresholds, the four
  counters, the smile reset, `contact`, and the string stream that is never
  cleared.
- `Smile` models `smileDetector`.
- `HeadSize` models the dead-band of `sizeHead`.
- `Novelty` models the EMA, the distance, the threshold and the stability
  counter `t`.
- `Motion` models `amountMovement`, together with the main loop's
  waiting-for-feedback gate and its point hand-over.
- `Vision` holds the state record and the per-face, per-frame and run
  functions. Faces are processed in order (`lookAt`, `sizeHead`,
  `smileDetector`, `novelty`) over the shared state. A frame without faces
  takes the main loop's own copy of the EMA update.

Initial state, as in the code: `contact = true`, `t = 1`, the EMA all ones,
every counter 0 and `prevSize = 0`.

Points of the code's behaviour the model keeps:

- The EMA starts at all ones (line 52).
- A movement event carries `total - 830000` (lines 398-401). A total of
  778001 reports -51999.
- A degenerate mouth test does not skip the face (lines 118-132). With a zero
  denominator the float division yields an infinity or NaN, and the range
  check fails: an infinite parameter lies outside [0,1] and a NaN fails every
  comparison. The test reports "no crossing", so the face counts towards a
  smile (`Smile.Qualifies`).
- `lookAt` zeroes the smile counter for a face that raises a gaze flag
  (line 299). But `smileDetector` runs on that same face afterwards
  (line 729) and may count it. So the counter ends at 1 or 0
  (`Vision.GazeResetsSmile`).

Two consequences proved here:

- The reset branch of the no-face EMA copy is dead. Decay alone adds at most
  6 x 0.02/3.61 < 1 to the distance, so `t` always advances there.
- If seeding finds no feature points, motion is never tracked again until the
  activity next waits for feedback (`Motion.StalledTrackerStaysStalled`).

## Model

| member | source | states |
|---|---|---|
| Geometry.SegmentsCross | src/vision.cpp:118-132 | Degenerate exactly when the denominator `-s2x*s1y + s1x*s2y` is zero. Otherwise the answer is true iff the two closed segments share a point. |
| Geometry.ParametersAreUnique | src/vision.cpp:121-128 | With a nonzero denominator, the computed `s` and `t` are the only parameters where the lines meet. So "both in [0,1]" is equivalent to the segments meeting. |
| Geometry.SolveAt | src/vision.cpp:125-126 | For any candidate parameters, the two lines meet there iff the parameters equal the quotients the code computes. |
| Debounce.Advance | src/vision.cpp:298-308 | A frame that does not qualify leaves the counter alone and does not fire. A qualifying frame fires iff the incremented count exceeds 5. It then resets the counter to 0; otherwise the counter is incremented. The counter stays in 0..5. |
| Debounce.RunCountsQualifying | src/vision.cpp:298-345 | Starting in 0..5, the counter after a run is (start + qualifying frames) mod 6. The number of firings is (start + qualifying frames) div 6. So it fires on the 6th qualifying frame since the last firing, consecutive or not. |
| Debounce.IdleRunKeepsCount | src/vision.cpp:298-345 | A run with no qualifying frame keeps the counter and never fires. |
| Gaze.Classify | src/vision.cpp:276-291 | Left and right exclude each other, and so do up and down. Each flag is the threshold 0.3*3.1415/180 applied to the raw ratio. A NaN ratio raises no flag. |
| Gaze.Publish | src/vision.cpp:295-344 | One message per firing in the call. |
| Gaze.PublishAccumulates | src/vision.cpp:296-341 | The k-th message of a call is the concatenation of the first k+1 fired labels, because the stream is never cleared. |
| Gaze.LookAt | src/vision.cpp:288-355 | Each counter advances on its own flag only. Any raised flag zeroes the smile counter. `contact` holds iff no direction fired. With no flag raised, nothing changes and nothing is published. Counters stay in 0..5. |
| Gaze.LookAtPublishes | src/vision.cpp:293-345 | Contact holds iff nothing was published. Every message is the running concatenation of the fired labels, in the order right, left, "robot contact", down. |
| Gaze.CountersAfterIsPerDirection | src/vision.cpp:298-345 | Over a run of faces, each direction's counter equals the debounce counter run over that direction's flags alone. |
| Gaze.GazeCounterCounts | src/vision.cpp:298-345 | After a run, a direction's counter is (start + faces looking that way) mod 6. |
| Smile.MouthCrossing | src/vision.cpp:169-176 | The test is applied to the corner line against the lip line; when determined, the result is true iff the segments share a point. |
| Smile.Qualifies | src/vision.cpp:174-179 | A face counts towards a smile iff contact holds and it is not the case that the denominator is nonzero and the mouth segments share a point. With a zero denominator (the division at lines 125-126, range check at 128-131) the face counts whenever contact holds. |
| Smile.SmileStep | src/vision.cpp:178-188 | The smile counter advances iff contact holds and the mouth segments are not seen to meet. It stays in 0..5. A firing implies contact and a reset to 0. |
| HeadSize.Wrap16 | src/vision.cpp:155-156 | The Int16 message value lies in 16-bit range, is congruent to the size mod 65536, and equals it when it fits. |
| HeadSize.SizeStep | src/vision.cpp:153-159 | Publishes iff `|prevSize - size| > 5`. Then `prevSize` becomes `size`; otherwise it is unchanged. Afterwards the remembered size is within 5 of the last observed size. |
| HeadSize.SizeStepSettles | src/vision.cpp:153-159 | Observing the same size twice in a row never publishes the second time. |
| HeadSize.DriftWithinBandIsSilent | src/vision.cpp:153-159 | A run of sizes all within 5 of the remembered size publishes nothing and leaves it unchanged. |
| HeadSize.SizeExample | src/vision.cpp:153-159 | Sizes 100, 100, 104, 110 from the initial 0 publish 100 and 110 and end at 110. |
| Novelty.Blend | src/vision.cpp:208-210 | One EMA channel moves a tenth of the way towards the sample and stays between the old value and the sample. |
| Novelty.Smooth | src/vision.cpp:206-210 | The length is kept. Each channel moves by `mu*(X[j]-EMA[j])` and stays between its old value and the sample. |
| Novelty.Term | src/vision.cpp:214-216 | A channel's contribution to `dist` is nonnegative, and zero when the channel did not move. |
| Novelty.Dist | src/vision.cpp:212-216 | `dist` is a sum of nonnegative terms, hence nonnegative. |
| Novelty.DistAtLeastTerm | src/vision.cpp:212-216 | `dist` is at least any single channel's term. |
| Novelty.DistAtMost | src/vision.cpp:212-216 | `dist` is at most the channel count times a bound on every term. |
| Novelty.Step | src/vision.cpp:195-227 | Each channel moves by `mu*(X[j]-EMA[j])`. `dist` is the distance between the new and the old average. It reports iff `dist > 1`, with the pre-reset `t`, and then `t = 1`. Otherwise `t` increments, so `t >= 1` always. |
| Novelty.DecayTermIsSmall | src/vision.cpp:743-749 | With an all-zero sample, a channel contributes at most 0.02/3.61, whatever its value. |
| Novelty.DecayNeverReports | src/vision.cpp:739-758 | An all-zero sample never reports, whatever the EMA, so `t` increments. |
| Novelty.ArrivalTermIsLarge | src/vision.cpp:209-215 | A channel at most 0.01 that receives a sample of at least 1 contributes more than the threshold on its own. |
| Novelty.ArrivalReports | src/vision.cpp:198-226 | Such an arrival makes the update report, with the pre-reset `t`, and restart `t` at 1. |
| Motion.Truncate | src/vision.cpp:377-378 | The C++ `int()` conversion truncates toward zero: less than one unit away, on the same side of zero. |
| Motion.TotalApproximatesTravel | src/vision.cpp:373-382 | `x_sum + y_sum` never exceeds the exact L1 travel of the points. It falls short by less than two units per point. |
| Motion.Step | src/vision.cpp:367-404 | While waiting for feedback, the step only requests reseeding. When reseeding is needed, it reseeds, clears the flag and reports nothing. Otherwise it reports iff points were tracked and `x_sum + y_sum > 778000` (strict), with value `total - 830000`. The next frame tracks iff this frame had points to track and feature detection found points. |
| Motion.StalledTrackerStaysStalled | src/vision.cpp:690-705 | Once seeding found no points, no later frame tracks or reports until a waiting frame. |
| Motion.ReportedMovementsAboveFloor | src/vision.cpp:398-402 | Every reported movement over a run exceeds 778000 - 830000. |
| Motion.ThresholdIsStrict | src/vision.cpp:398-402 | A total of exactly 778000 reports nothing. 778001 reports -51999. |
| Vision.InitIsValid | src/vision.cpp:46-59 | The start-up state satisfies the invariant: counters in 0..5, six nonnegative EMA channels with the flag channels at most 1, and `t >= 1`. |
| Vision.Features | src/vision.cpp:198-204 | The sample has six channels. Channels 0-3 are 1 exactly when the face looks right, left, up and down respectively, and channel 4 is 1 exactly when contact holds. All five flag channels lie in [0,1]. The last channel is the face count. |
| Vision.OtherEvents | src/vision.cpp:727-730 | The size, smile and novelty publications contain no gaze event. A novelty event comes last exactly when the EMA update reported. |
| Vision.OtherEventsPublish | src/vision.cpp:153-159 | A face publishes the size `v` exactly when `sizeHead` publishes `v`; it publishes a smile exactly when the smile counter fires (line 184). |
| Vision.OtherEventsSelect | src/vision.cpp:153-159 | The sizes among a face's size, smile and novelty publications are exactly the one `sizeHead` published, if any; none of them is a movement. |
| Vision.FaceStep | src/vision.cpp:720-734 | One face keeps the state invariant and leaves the motion tracker alone. `contact` is the one `lookAt` decides for this face. The remembered size is the one `sizeHead` leaves for this face's size. The EMA and `t` are those `novelty` computes from the sample of this face's directions, that contact and the frame's face count. |
| Vision.FacePublishes | src/vision.cpp:293-345 | A face publishes exactly the gaze texts `lookAt` produced, in order. It publishes a smile exactly when `smileDetector` fires (lines 181-185). It publishes a novelty carrying `dist` and the `t` it ends exactly when `novelty` reports (lines 217-222). |
| Vision.FaceSelections | src/vision.cpp:727-730 | The sizes one face publishes are exactly what `sizeHead` publishes for it; a face publishes no movement. |
| Vision.FaceContact | src/vision.cpp:293-349 | After a face, `contact` holds iff none of the four `lookAt` counters fired for it, and iff the face published no gaze text. The landmark set is recorded as a contact sample exactly then. |
| Vision.GazeResetsSmile | src/vision.cpp:727-729 | After a face that raises a gaze flag, the smile counter is 1 if this face qualified for a smile, else 0. |
| Vision.FaceNovelty | src/vision.cpp:217-226 | If the face's update has `dist > 1`, the face publishes last a novelty with that `dist` and the `t` it ends, and sets `t` to 1. Otherwise it publishes no novelty and increments `t`. |
| Vision.FacesStep | src/vision.cpp:720-734 | Processing a frame's faces in order keeps the invariant and leaves the tracker alone. The sizes published are those of the dead-band run over every face's size in turn, and the remembered size is where that run ends. No movement is published. |
| Vision.NoFaceStep | src/vision.cpp:739-758 | A frame without faces multiplies every EMA channel by 0.9 and always increments `t`. Nothing else changes. |
| Vision.FrameStep | src/vision.cpp:678-758 | A frame keeps the invariant, and the tracker follows the motion step. A reported movement is published first, with its value (lines 690-691 run before the faces). With faces, the state is that of processing all the faces in order over the updated tracker, each sample carrying the frame's face count. Without faces, the state is the no-face decay of lines 739-758 over the updated tracker: only the tracker, the EMA and `t` (by +1) change, and only movement is published. |
| Vision.FrameEvents | src/vision.cpp:690-734 | A frame publishes its movement, if any, followed by everything its faces publish in detection order, and nothing else. |
| Vision.Run | src/vision.cpp:678-765 | A run of frames keeps the six EMA channels. Invariant preservation is `Vision.RunPreservesValid`. |
| Vision.FramePublishes | src/vision.cpp:678-758 | A frame publishes exactly the movement its motion step reports, and exactly the sizes the dead-band publishes over its faces' sizes, ending at the dead-band's remembered size. |
| Vision.MovementsOfRun | src/vision.cpp:690-705 | Over any run of frames the movements the node publishes, and the tracker it ends with, are those of the motion steps alone: faces never affect motion. |
| Vision.NodeMovementsAboveFloor | src/vision.cpp:398-402 | Every movement the node publishes over a run exceeds 778000 - 830000. |
| Vision.StalledNodeNeverMoves | src/vision.cpp:690-705 | Once seeding found no points, the node publishes no movement and stays stalled until a frame waits for feedback, whatever faces it sees. |
| Vision.RunPreservesValid | src/vision.cpp:678-758 | Every run of frames from a valid state ends in a valid state. In particular, gaze and smile counters stay in 0..5 and `t >= 1`. |
| Vision.EmptyFramesOnlyDecay | src/vision.cpp:739-758 | A run of frames without faces never publishes a novelty, and `t` grows by the number of frames. |
| Vision.FacesShareGazeCounters | src/vision.cpp:720-734 | All faces of a frame share the four gaze counters. After the frame, they are the counters `lookAt` reaches over every face's flags in turn. |
| Vision.FaceWithoutGaze | src/vision.cpp:727-729 | A face that raises no gaze flag keeps contact, is recorded as a contact sample, leaves the gaze counters alone and publishes no gaze text. The smile counter advances iff its mouth lines are not seen to cross. |
| Vision.SmileCountsWithoutGaze | src/vision.cpp:178-188 | While no face raises a gaze flag, the smile counter is the debounce counter over the faces whose mouth lines do not cross; with Debounce.RunCountsQualifying, it reports on the sixth such face since its last reset. Gaze counters are unchanged, every face is a contact sample, and no gaze text is published. |
| Vision.FaceArrivalReportsNovelty | src/vision.cpp:198-223 | When the face-count channel has settled at most 0.01, a face publishes a novelty carrying the `t` it ends, and `t` restarts at 1. |

## Left out

- Landmark detection and regression are inputs: dlib's detector, the shape predictor, `getPointFromPart` and the landmark index table. A face is given as its two ratios, its integer size and its mouth points.
- The floating-point geometry of `lookAt` (lines 245-256) and `sizeHead` (lines 149-151) is not modelled. This includes `sqrt` and the divisions. Its results are inputs. A NaN ratio is represented by `Gaze.Ratio.NotANumber`. The unused `cos`/`sin` vector (lines 279-281) has no effect.
- Novelty.Step: the published score is `dist * sqrt(t)`. The model does not compute the square root. The event carries `dist` and the pre-reset `t` it is scaled by.
- Novelty.Step: the EMA, `dist` and `t` are floats in the source. The model uses unbounded reals and naturals. Rounding is not modelled, nor is `t` ceasing to grow past 2^24.
- Motion.Step: `goodFeaturesToTrack` and `calcOpticalFlowPyrLK` are inputs. The step takes the flow pairs of the tracked points and whether feature detection found points. The point lists themselves are reduced to "are any tracked".
- Motion.Step: `x_sum` is uninitialised in the source, which is undefined behaviour. The model starts it at 0. With that start, reaching 778000 is practically impossible. At most 100 points are tracked (line 42, `MAX_COUNT`) in a 640x360 frame (lines 656-657). Points that stay in the frame give a total under 100000. The constants appear to have been tuned against the uninitialised value.
- Float arithmetic (lines 276-277 and 377-378): the degree rescale of the gaze ratios, the flow-pair coordinates and the segment geometry are floats in the source. The model uses exact reals, so rounding is not modelled.
- Motion.Total: the sums are unbounded integers. The source's 32-bit `int` overflow is not modelled: with `x_sum` starting at 0 and at most 100 points tracked it cannot occur, but from the uninitialised `x_sum` of line 373 it can.
- Console logging (`cout` and `ROS_INFO` at lines 154, 182, 219, 304 and 400) has no effect on the state or the publications.
- Publication transport is not modelled: ROS publishers, the `Float32` message sent on an `Int16` topic, the subscribers, and the `stateActivityCallback`, `stopActivityCallback` and `newChildCallback` callbacks. The waiting-for-feedback state is a boolean input of the motion step.
- The `contacts` vector is only counted (`State.contacts`). Its landmark contents are not kept.
- Video recording, drawing, the window, `currentDateTime`, `tic`/`toc`, `shapeToPoints` and the commented-out `calibration` are I/O or disabled code.

=== FILE: debounce.dfy ===
/** The debounce counter shared by the four gaze directions and the smile
    detector: it counts qualifying frames and fires once it exceeds five, then
    starts again from zero. A frame that does not qualify leaves it alone. */
module Debounce {

  /** A counter fires when, after its increment, it exceeds this value. */
  const Limit: nat := 5

  /** The period of a counter: it fires on every sixth qualifying frame. */
  const Period: nat := Limit + 1

  /** The counter after one frame, and whether it fired in that frame. */
  datatype Tick = Tick(count: nat, fired: bool)

  /** One frame of a counter: increment when `qualifies`, fire and reset to
      zero once the count exceeds `Limit`. */
  function Advance(count: nat, qualifies: bool): (r: Tick)
    ensures !qualifies ==> r == Tick(count, false)
    ensures qualifies ==> (r.fired <==> count + 1 > Limit)
    ensures count <= Limit ==> r.count <= Limit
    ensures qualifies && !r.fired ==> r.count == count + 1
    ensures r.fired ==> r.count == 0
  {
    if !qualifies then Tick(count, false)
    else if count + 1 > Limit then Tick(0, true)
    else Tick(count + 1, false)
  }

  /** Number of qualifying frames in a run. */
  function Qualifying(qs: seq<bool>): nat {
    if qs == [] then 0 else (if qs[0] then 1 else 0) + Qualifying(qs[1..])
  }

  /** The counter after a run of frames. */
  function CountAfter(count: nat, qs: seq<bool>): nat
    decreases |qs|
  {
    if qs == [] then count else CountAfter(Advance(count, qs[0]).count, qs[1..])
  }

  /** How often the counter fires during a run of frames. */
  function FiringsDuring(count: nat, qs: seq<bool>): nat
    decreases |qs|
  {
    if qs == [] then 0
    else
      var tick := Advance(count, qs[0]);
      (if tick.fired then 1 else 0) + FiringsDuring(tick.count, qs[1..])
  }

  /** Starting anywhere in 0..5, the counter is the number of qualifying frames
      seen so far modulo six, and it has fired once for every complete group of
      six: it fires on the sixth qualifying frame since its last firing, whether
      or not those frames were consecutive. */
  lemma {:induction false} RunCountsQualifying(count: nat, qs: seq<bool>)
    requires count <= Limit
    ensures CountAfter(count, qs) == (count + Qualifying(qs)) % Period
    ensures FiringsDuring(count, qs) == (count + Qualifying(qs)) / Period
    decreases |qs|
  {
    if qs != [] {
      var tick := Advance(count, qs[0]);
      RunCountsQualifying(tick.count, qs[1..]);
    }
  }

  /** Frames that do not qualify never move the counter. */
  lemma {:induction false} IdleRunKeepsCount(count: nat, qs: seq<bool>)
    requires forall i :: 0 <= i < |qs| ==> !qs[i]
    ensures CountAfter(count, qs) == count
    ensures FiringsDuring(count, qs) == 0
  {
    if qs != [] {
      IdleRunKeepsCount(count, qs[1..]);
    }
  }
}

=== FILE: gaze.dfy ===
/** Gaze classification (`lookAt`): the two head-pose ratios become four
    direction flags, each feeding its own debounce counter; a counter that
    fires publishes its direction's label and breaks eye contact. */
module Gaze {
  import opened Debounce

  /** A head-pose ratio produced by the landmark geometry. `NotANumber` is the
      IEEE NaN the geometry yields for degenerate landmarks (the two side
      points coinciding, or the nose level with the interpolated point); every
      comparison with it is false. */
  datatype Ratio = Finite(value: real) | NotANumber

  /** The rescaling the source calls "pass to degrees", with its constant 3.1415. */
  function Degrees(r: Ratio): Ratio {
    match r
    case Finite(v) => Finite((v * 180.0) / 3.1415)
    case NotANumber => NotANumber
  }

  /** A direction is taken when its rescaled ratio is beyond +-0.3. */
  const Threshold: real := 0.3

  /** The same threshold expressed on the ratio before rescaling. */
  const RatioThreshold: real := Threshold * 3.1415 / 180.0

  predicate Above(r: Ratio, bound: real) {
    r.Finite? && r.value > bound
  }

  predicate Below(r: Ratio, bound: real) {
    r.Finite? && r.value < bound
  }

  datatype Dir = Right | Left | Up | Down

  datatype Directions = Directions(right: bool, left: bool, up: bool, down: bool)

  function Holds(d: Directions, dir: Dir): bool {
    match dir
    case Right => d.right
    case Left => d.left
    case Up => d.up
    case Down => d.down
  }

  predicate AnyHolds(d: Directions) {
    d.right || d.left || d.up || d.down
  }

  /** The four direction flags of one face. A positive east-west ratio means
      looking left, a positive south-north ratio looking up. */
  function Classify(eastWest: Ratio, southNorth: Ratio): (d: Directions)
    ensures !(d.right && d.left) && !(d.up && d.down)
    ensures d.left <==> Above(eastWest, RatioThreshold)
    ensures d.right <==> Below(eastWest, -RatioThreshold)
    ensures d.up <==> Above(southNorth, RatioThreshold)
    ensures d.down <==> Below(southNorth, -RatioThreshold)
  {
    var ew, sn := Degrees(eastWest), Degrees(southNorth);
    Directions(Below(ew, -Threshold), Above(ew, Threshold), Above(sn, Threshold), Below(sn, -Threshold))
  }

  /** The text published when a direction fires; looking up is reported as
      "robot contact". */
  function Label(dir: Dir): string {
    match dir
    case Right => "right"
    case Left => "left"
    case Up => "robot contact"
    case Down => "down"
  }

  datatype Counters = Counters(right: nat, left: nat, up: nat, down: nat)

  function Get(c: Counters, dir: Dir): nat {
    match dir
    case Right => c.right
    case Left => c.left
    case Up => c.up
    case Down => c.down
  }

  const Zero: Counters := Counters(0, 0, 0, 0)

  predicate Bounded(c: Counters) {
    forall dir :: Get(c, dir) <= Limit
  }

  /** Concatenation of a list of labels. */
  function Concat(labels: seq<string>): string {
    if labels == [] then [] else labels[0] + Concat(labels[1..])
  }

  /** The messages published by successive firings in one call: the source
      appends each label to one string stream that is never cleared and
      publishes the whole stream each time. */
  function Publish(text: string, labels: seq<string>): (r: seq<string>)
    ensures |r| == |labels|
    decreases |labels|
  {
    if labels == [] then [] else [text + labels[0]] + Publish(text + labels[0], labels[1..])
  }

  /** The k-th message of a call is the concatenation of the first k+1 labels
      fired in that call. */
  lemma {:induction false} PublishAccumulates(text: string, labels: seq<string>)
    ensures forall k :: 0 <= k < |labels| ==>
      Publish(text, labels)[k] == text + Concat(labels[..k + 1])
    decreases |labels|
  {
    forall k | 0 <= k < |labels|
      ensures Publish(text, labels)[k] == text + Concat(labels[..k + 1])
    {
      PublishAt(text, labels, k);
    }
  }

  lemma {:induction false} PublishAt(text: string, labels: seq<string>, k: nat)
    requires k < |labels|
    ensures Publish(text, labels)[k] == text + Concat(labels[..k + 1])
    decreases k
  {
    var prefix := labels[..k + 1];
    assert prefix[0] == labels[0];
    if k == 0 {
      assert prefix[1..] == [];
      assert Concat(prefix) == labels[0] + Concat([]);
    } else {
      PublishAt(text + labels[0], labels[1..], k - 1);
      assert prefix[1..] == labels[1..][..k];
      assert Concat(prefix) == labels[0] + Concat(labels[1..][..k]);
      assert Publish(text, labels)[k] == Publish(text + labels[0], labels[1..])[k - 1];
    }
  }

  /** Result of `lookAt` for one face. */
  datatype Look = Look(counters: Counters, smile: nat, contact: bool, published: seq<string>)

  /** The labels of the directions that fire, in the order right, left, up, down. */
  function FiredLabels(c: Counters, d: Directions): seq<string> {
    (if Advance(c.right, d.right).fired then [Label(Right)] else []) +
    (if Advance(c.left, d.left).fired then [Label(Left)] else []) +
    (if Advance(c.up, d.up).fired then [Label(Up)] else []) +
    (if Advance(c.down, d.down).fired then [Label(Down)] else [])
  }

  /** `lookAt`'s counter logic: each direction's counter advances on its own
      flag; any raised flag zeroes the smile counter; contact holds unless some
      direction fired. */
  function LookAt(c: Counters, smile: nat, d: Directions): (r: Look)
    ensures forall dir :: Get(r.counters, dir) == Advance(Get(c, dir), Holds(d, dir)).count
    ensures r.contact <==> forall dir :: !Advance(Get(c, dir), Holds(d, dir)).fired
    ensures AnyHolds(d) ==> r.smile == 0
    ensures !AnyHolds(d) ==> r.smile == smile && r.counters == c && r.contact && r.published == []
    ensures |r.published| == |FiredLabels(c, d)|
    ensures Bounded(c) ==> Bounded(r.counters)
  {
    var right := Advance(c.right, d.right);
    var left := Advance(c.left, d.left);
    var up := Advance(c.up, d.up);
    var down := Advance(c.down, d.down);
    var r := Look(Counters(right.count, left.count, up.count, down.count),
                  if AnyHolds(d) then 0 else smile,
                  !(right.fired || left.fired || up.fired || down.fired),
                  Publish("", FiredLabels(c, d)));
    NoneFiredIffEachSilent(c, d);
    r
  }

  /** No direction fires exactly when none of the four counters fires. */
  lemma NoneFiredIffEachSilent(c: Counters, d: Directions)
    ensures (forall dir :: !Advance(Get(c, dir), Holds(d, dir)).fired) <==>
      !(Advance(c.right, d.right).fired || Advance(c.left, d.left).fired ||
        Advance(c.up, d.up).fired || Advance(c.down, d.down).fired)
  {
    if !(Advance(c.right, d.right).fired || Advance(c.left, d.left).fired ||
         Advance(c.up, d.up).fired || Advance(c.down, d.down).fired) {
      forall dir ensures !Advance(Get(c, dir), Holds(d, dir)).fired {
        match dir
        case Right =>
        case Left =>
        case Up =>
        case Down =>
      }
    } else {
      assert Get(c, Right) == c.right && Holds(d, Right) == d.right;
      assert Get(c, Left) == c.left && Holds(d, Left) == d.left;
      assert Get(c, Up) == c.up && Holds(d, Up) == d.up;
      assert Get(c, Down) == c.down && Holds(d, Down) == d.down;
    }
  }

  /** Every message of a call is the concatenation of the labels fired so far,
      in the order right, left, up, down; a call where nothing fires publishes
      nothing and keeps contact. */
  lemma LookAtPublishes(c: Counters, smile: nat, d: Directions)
    ensures var r := LookAt(c, smile, d);
            && (r.contact <==> r.published == [])
            && forall k :: 0 <= k < |r.published| ==>
                 r.published[k] == Concat(FiredLabels(c, d)[..k + 1])
  {
    PublishAccumulates("", FiredLabels(c, d));
    var r := LookAt(c, smile, d);
    if !r.contact {
      assert exists dir :: Advance(Get(c, dir), Holds(d, dir)).fired;
      var dir :| Advance(Get(c, dir), Holds(d, dir)).fired;
      match dir
      case Right =>
      case Left =>
      case Up =>
      case Down =>
    }
  }

  /** The direction flags of a run of faces, projected on one direction. */
  function Project(ds: seq<Directions>, dir: Dir): (qs: seq<bool>)
    ensures |qs| == |ds|
  {
    if ds == [] then [] else [Holds(ds[0], dir)] + Project(ds[1..], dir)
  }

  /** The gaze counters after `lookAt` has seen a run of faces. */
  function CountersAfter(c: Counters, ds: seq<Directions>): Counters
    decreases |ds|
  {
    if ds == [] then c else CountersAfter(LookAt(c, 0, ds[0]).counters, ds[1..])
  }

  /** Each direction's counter sees only its own flags: after a run it equals
      the fold of the shared debounce counter over that direction's flags. */
  lemma {:induction false} CountersAfterIsPerDirection(c: Counters, ds: seq<Directions>, dir: Dir)
    ensures Get(CountersAfter(c, ds), dir) == CountAfter(Get(c, dir), Project(ds, dir))
    decreases |ds|
  {
    if ds != [] {
      CountersAfterIsPerDirection(LookAt(c, 0, ds[0]).counters, ds[1..], dir);
      assert Project(ds, dir)[1..] == Project(ds[1..], dir);
    }
  }

  /** Starting from bounded counters, a direction's counter after a run is its
      start plus the number of faces looking that way, modulo six: it fires on
      the sixth qualifying face since its last firing. */
  lemma GazeCounterCounts(c: Counters, ds: seq<Directions>, dir: Dir)
    requires Bounded(c)
    ensures Get(CountersAfter(c, ds), dir) == (Get(c, dir) + Qualifying(Project(ds, dir))) % Period
  {
    CountersAfterIsPerDirection(c, ds, dir);
    RunCountsQualifying(Get(c, dir), Project(ds, dir));
  }
}

=== FILE: geometry.dfy ===
/** Plane geometry used by the mouth test: the parametric segment-intersection
    test of `get_line_intersection`, computed over the reals. */
module Geometry {

  datatype Point = Point(x: real, y: real)

  /** The point a fraction `k` of the way from `a` to `b`. */
  function Lerp(a: Point, b: Point, k: real): Point {
    Point(a.x + k * (b.x - a.x), a.y + k * (b.y - a.y))
  }

  /** The common denominator of both segment parameters: the cross product of
      the two direction vectors (zero when the segments are parallel or one of
      them is a single point). */
  function Denominator(p0: Point, p1: Point, p2: Point, p3: Point): real {
    -(p3.x - p2.x) * (p1.y - p0.y) + (p1.x - p0.x) * (p3.y - p2.y)
  }

  /** Numerator of `s`, the parameter along the second segment p2-p3. */
  function NumeratorS(p0: Point, p1: Point, p2: Point, p3: Point): real {
    -(p1.y - p0.y) * (p0.x - p2.x) + (p1.x - p0.x) * (p0.y - p2.y)
  }

  /** Numerator of `t`, the parameter along the first segment p0-p1. */
  function NumeratorT(p0: Point, p1: Point, p2: Point, p3: Point): real {
    (p3.x - p2.x) * (p0.y - p2.y) - (p3.y - p2.y) * (p0.x - p2.x)
  }

  /** Independent reference: the closed segments p0-p1 and p2-p3 share a point. */
  ghost predicate SegmentsMeet(p0: Point, p1: Point, p2: Point, p3: Point) {
    exists s: real, t: real ::
      0.0 <= s <= 1.0 && 0.0 <= t <= 1.0 && Lerp(p0, p1, t) == Lerp(p2, p3, s)
  }

  /** Outcome of the segment test: either the answer, or `Degenerate` when the
      denominator is zero and the parameters are undefined. */
  datatype Crossing = Degenerate | Determined(crosses: bool)

  /** `get_line_intersection`: whether segment p0-p1 crosses segment p2-p3. */
  function SegmentsCross(p0: Point, p1: Point, p2: Point, p3: Point): (r: Crossing)
    ensures r.Degenerate? <==> Denominator(p0, p1, p2, p3) == 0.0
    ensures r.Determined? ==> (r.crosses <==> SegmentsMeet(p0, p1, p2, p3))
  {
    var d := Denominator(p0, p1, p2, p3);
    if d == 0.0 then Degenerate
    else
      var s := NumeratorS(p0, p1, p2, p3) / d;
      var t := NumeratorT(p0, p1, p2, p3) / d;
      ParametersAreUnique(p0, p1, p2, p3);
      Determined(0.0 <= s && s <= 1.0 && 0.0 <= t && t <= 1.0)
  }

  /** With a nonzero denominator the two parameters computed by the test are
      the only ones at which the supporting lines meet, so the range check on
      them decides whether the segments meet. */
  lemma ParametersAreUnique(p0: Point, p1: Point, p2: Point, p3: Point)
    requires Denominator(p0, p1, p2, p3) != 0.0
    ensures forall s: real, t: real ::
      Lerp(p0, p1, t) == Lerp(p2, p3, s) <==>
        (s == NumeratorS(p0, p1, p2, p3) / Denominator(p0, p1, p2, p3) &&
         t == NumeratorT(p0, p1, p2, p3) / Denominator(p0, p1, p2, p3))
    ensures SegmentsMeet(p0, p1, p2, p3) <==>
      (var d := Denominator(p0, p1, p2, p3);
       var s := NumeratorS(p0, p1, p2, p3) / d;
       var t := NumeratorT(p0, p1, p2, p3) / d;
       0.0 <= s <= 1.0 && 0.0 <= t <= 1.0)
  {
    forall s: real, t: real
      ensures Lerp(p0, p1, t) == Lerp(p2, p3, s) <==>
        (s == NumeratorS(p0, p1, p2, p3) / Denominator(p0, p1, p2, p3) &&
         t == NumeratorT(p0, p1, p2, p3) / Denominator(p0, p1, p2, p3))
    {
      SolveAt(p0, p1, p2, p3, s, t);
    }
    var d := Denominator(p0, p1, p2, p3);
    var s := NumeratorS(p0, p1, p2, p3) / d;
    var t := NumeratorT(p0, p1, p2, p3) / d;
    if 0.0 <= s <= 1.0 && 0.0 <= t <= 1.0 {
      assert Lerp(p0, p1, t) == Lerp(p2, p3, s);
    }
  }

  /** Cramer's rule for the 2x2 system Lerp(p0, p1, t) == Lerp(p2, p3, s). */
  lemma SolveAt(p0: Point, p1: Point, p2: Point, p3: Point, s: real, t: real)
    requires Denominator(p0, p1, p2, p3) != 0.0
    ensures Lerp(p0, p1, t) == Lerp(p2, p3, s) <==>
      (s == NumeratorS(p0, p1, p2, p3) / Denominator(p0, p1, p2, p3) &&
       t == NumeratorT(p0, p1, p2, p3) / Denominator(p0, p1, p2, p3))
  {
    if Lerp(p0, p1, t) == Lerp(p2, p3, s) {
      MeetingIsSolution(p0, p1, p2, p3, s, t);
    }
    if s == NumeratorS(p0, p1, p2, p3) / Denominator(p0, p1, p2, p3) &&
       t == NumeratorT(p0, p1, p2, p3) / Denominator(p0, p1, p2, p3) {
      SolutionMeets(p0, p1, p2, p3, s, t);
    }
  }

  /** Where the lines meet, the parameters are the computed quotients. */
  lemma MeetingIsSolution(p0: Point, p1: Point, p2: Point, p3: Point, s: real, t: real)
    requires Denominator(p0, p1, p2, p3) != 0.0
    requires Lerp(p0, p1, t) == Lerp(p2, p3, s)
    ensures s == NumeratorS(p0, p1, p2, p3) / Denominator(p0, p1, p2, p3)
    ensures t == NumeratorT(p0, p1, p2, p3) / Denominator(p0, p1, p2, p3)
  {
    var s1x, s1y := p1.x - p0.x, p1.y - p0.y;
    var s2x, s2y := p3.x - p2.x, p3.y - p2.y;
    var dx, dy := p0.x - p2.x, p0.y - p2.y;
    Expand(p0, p1, p2, p3, s, t);
    MeetIffResidualsVanish(p0, p1, p2, p3, s, t);
    Forward(s1x, s1y, s2x, s2y, dx, dy, Denominator(p0, p1, p2, p3),
            NumeratorS(p0, p1, p2, p3), NumeratorT(p0, p1, p2, p3), s, t);
  }

  /** At the computed quotients, the lines meet. */
  lemma SolutionMeets(p0: Point, p1: Point, p2: Point, p3: Point, s: real, t: real)
    requires Denominator(p0, p1, p2, p3) != 0.0
    requires s == NumeratorS(p0, p1, p2, p3) / Denominator(p0, p1, p2, p3)
    requires t == NumeratorT(p0, p1, p2, p3) / Denominator(p0, p1, p2, p3)
    ensures Lerp(p0, p1, t) == Lerp(p2, p3, s)
  {
    var s1x, s1y := p1.x - p0.x, p1.y - p0.y;
    var s2x, s2y := p3.x - p2.x, p3.y - p2.y;
    var dx, dy := p0.x - p2.x, p0.y - p2.y;
    Expand(p0, p1, p2, p3, s, t);
    Backward(s1x, s1y, s2x, s2y, dx, dy, Denominator(p0, p1, p2, p3),
             NumeratorS(p0, p1, p2, p3), NumeratorT(p0, p1, p2, p3), s, t);
    var a, b := Lerp(p0, p1, t), Lerp(p2, p3, s);
    assert a.x - b.x == t * s1x - s * s2x + dx == 0.0;
    assert a.y - b.y == t * s1y - s * s2y + dy == 0.0;
    assert a.x == b.x && a.y == b.y;
  }

  /** Two points coincide exactly when both coordinate differences vanish. */
  lemma MeetIffResidualsVanish(p0: Point, p1: Point, p2: Point, p3: Point, s: real, t: real)
    ensures Lerp(p0, p1, t) == Lerp(p2, p3, s) <==>
      (Lerp(p0, p1, t).x - Lerp(p2, p3, s).x == 0.0 && Lerp(p0, p1, t).y - Lerp(p2, p3, s).y == 0.0)
  {
  }

  /** The test's quantities written in terms of the segment directions. */
  lemma Expand(p0: Point, p1: Point, p2: Point, p3: Point, s: real, t: real)
    ensures var s1x, s1y := p1.x - p0.x, p1.y - p0.y;
            var s2x, s2y := p3.x - p2.x, p3.y - p2.y;
            var dx, dy := p0.x - p2.x, p0.y - p2.y;
            && Denominator(p0, p1, p2, p3) == s1x * s2y - s2x * s1y
            && NumeratorS(p0, p1, p2, p3) == s1x * dy - s1y * dx
            && NumeratorT(p0, p1, p2, p3) == s2x * dy - s2y * dx
            && Lerp(p0, p1, t).x - Lerp(p2, p3, s).x == t * s1x - s * s2x + dx
            && Lerp(p0, p1, t).y - Lerp(p2, p3, s).y == t * s1y - s * s2y + dy
  {
  }

  /** A solution of the system is the one Cramer's rule computes. */
  lemma Forward(s1x: real, s1y: real, s2x: real, s2y: real, dx: real, dy: real,
                d: real, ns: real, nt: real, s: real, t: real)
    requires d == s1x * s2y - s2x * s1y && d != 0.0
    requires ns == s1x * dy - s1y * dx && nt == s2x * dy - s2y * dx
    requires t * s1x - s * s2x + dx == 0.0 && t * s1y - s * s2y + dy == 0.0
    ensures s == ns / d && t == nt / d
  {
    Eliminate(s1x, s1y, s2x, s2y, dx, dy, s, t);
    Cancel(s, ns, d);
    Cancel(t, nt, d);
  }

  /** The parameters Cramer's rule computes solve the system. */
  lemma Backward(s1x: real, s1y: real, s2x: real, s2y: real, dx: real, dy: real,
                 d: real, ns: real, nt: real, s: real, t: real)
    requires d == s1x * s2y - s2x * s1y && d != 0.0
    requires ns == s1x * dy - s1y * dx && nt == s2x * dy - s2y * dx
    requires s == ns / d && t == nt / d
    ensures t * s1x - s * s2x + dx == 0.0 && t * s1y - s * s2y + dy == 0.0
  {
    assert s * d == ns;
    assert t * d == nt;
    Eliminate(s1x, s1y, s2x, s2y, dx, dy, s, t);
    ZeroProduct(t * s1x - s * s2x + dx, d);
    ZeroProduct(t * s1y - s * s2y + dy, d);
  }

  /** The polynomial identities behind Cramer's rule. */
  lemma Eliminate(s1x: real, s1y: real, s2x: real, s2y: real, dx: real, dy: real, s: real, t: real)
    ensures var d := s1x * s2y - s2x * s1y;
            var ex := t * s1x - s * s2x + dx;
            var ey := t * s1y - s * s2y + dy;
            && s * d - (s1x * dy - s1y * dx) == s1y * ex - s1x * ey
            && t * d - (s2x * dy - s2y * dx) == s2y * ex - s2x * ey
            && ex * d == s1x * (t * d - (s2x * dy - s2y * dx)) - s2x * (s * d - (s1x * dy - s1y * dx))
            && ey * d == s1y * (t * d - (s2x * dy - s2y * dx)) - s2y * (s * d - (s1x * dy - s1y * dx))
  {
  }

  lemma ZeroProduct(e: real, d: real)
    requires d != 0.0 && e * d == 0.0
    ensures e == 0.0
  {
  }

  lemma Cancel(a: real, n: real, d: real)
    requires d != 0.0 && a * d - n == 0.0
    ensures a == n / d
  {
  }
}

=== FILE: headsize.dfy ===
/** Head-size change detection (`sizeHead`): the integer head size is
    published only when it moved more than five units away from the last
    published size. */
module HeadSize {
  import opened Optional
  import opened Integers

  /** Changes of at most this many units are ignored. */
  const DeadBand: nat := 5

  /** The value a 16-bit signed message field holds after assigning `x`. */
  function Wrap16(x: int): (r: int)
    ensures -32768 <= r < 32768
    ensures (x - r) % 65536 == 0
    ensures -32768 <= x < 32768 ==> r == x
  {
    (x + 32768) % 65536 - 32768
  }

  datatype SizeOut = SizeOut(prevSize: int, published: Option<int>)

  /** One call of `sizeHead` with the head size of the current face. */
  function SizeStep(prevSize: int, size: int): (r: SizeOut)
    ensures r.published.Some? <==> Abs(prevSize - size) > DeadBand
    ensures r.published.Some? ==> r.prevSize == size && r.published.value == Wrap16(size)
    ensures r.published.None? ==> r.prevSize == prevSize
    ensures Abs(r.prevSize - size) <= DeadBand
  {
    if Abs(prevSize - size) > DeadBand then SizeOut(size, Some(Wrap16(size)))
    else SizeOut(prevSize, None)
  }

  /** Seeing the same size again right away never publishes. */
  lemma SizeStepSettles(prevSize: int, size: int)
    ensures SizeStep(SizeStep(prevSize, size).prevSize, size).published == None
  {
  }

  /** The sizes published over a run of observations. */
  function PublishedDuring(prevSize: int, sizes: seq<int>): seq<int>
    decreases |sizes|
  {
    if sizes == [] then []
    else
      var out := SizeStep(prevSize, sizes[0]);
      (if out.published.Some? then [out.published.value] else []) + PublishedDuring(out.prevSize, sizes[1..])
  }

  /** The remembered size after a run of observations. */
  function SizeAfter(prevSize: int, sizes: seq<int>): int
    decreases |sizes|
  {
    if sizes == [] then prevSize else SizeAfter(SizeStep(prevSize, sizes[0]).prevSize, sizes[1..])
  }

  /** A run whose sizes all stay within the dead-band of the remembered size
      publishes nothing and leaves it unchanged: slow drift is never reported
      while it stays within five units of the last report. */
  lemma {:induction false} DriftWithinBandIsSilent(prevSize: int, sizes: seq<int>)
    requires forall i :: 0 <= i < |sizes| ==> Abs(prevSize - sizes[i]) <= DeadBand
    ensures PublishedDuring(prevSize, sizes) == []
    ensures SizeAfter(prevSize, sizes) == prevSize
    decreases |sizes|
  {
    if sizes != [] {
      DriftWithinBandIsSilent(prevSize, sizes[1..]);
    }
  }

  /** Sizes 100, 100, 104, 110 starting from the initial remembered size 0:
      100 is reported, 104 is within the band of 100, 110 is reported. */
  lemma SizeExample()
    ensures PublishedDuring(0, [100, 100, 104, 110]) == [100, 110]
    ensures SizeAfter(0, [100, 100, 104, 110]) == 110
  {
    assert [100, 100, 104, 110][1..] == [100, 104, 110];
    assert [100, 104, 110][1..] == [104, 110];
    assert [104, 110][1..] == [110];
  }
}

=== FILE: integers.dfy ===
/** Integer helpers shared by the size and motion modules. */
module Integers {

  /** Absolute value, as C++ `abs` on an `int`. */
  function Abs(x: int): (r: nat)
    ensures r == x || r == -x
  {
    if x < 0 then -x else x
  }
}

=== FILE: motion.dfy ===
/** Motion aggregation (`amountMovement` and its gate in the main loop): the
    absolute displacements of the tracked feature points are summed, and a
    movement is reported, offset by a fixed bias, when the sum exceeds a fixed
    threshold. The tracked point set is reseeded on start-up and whenever the
    activity is waiting for feedback. */
module Motion {
  import opened Geometry
  import opened Optional
  import opened Integers

  /** Total displacements above this are reported. */
  const Threshold: int := 778000

  /** Subtracted from the total before it is reported. */
  const Offset: int := 830000

  /** C++ conversion of a float to `int`: truncation toward zero. */
  function Truncate(r: real): (i: int)
    ensures 0.0 <= r ==> 0 <= i && i as real <= r < i as real + 1.0
    ensures r < 0.0 ==> i <= 0 && i as real - 1.0 < r <= i as real
  {
    if r >= 0.0 then r.Floor else -((-r).Floor)
  }

  function RealAbs(r: real): real {
    if r < 0.0 then -r else r
  }

  /** A tracked point in the previous frame and where optical flow found it now. */
  datatype FlowPair = FlowPair(prev: Point, curr: Point)

  /** The whole-pixel horizontal and vertical displacement of one point. */
  function DeltaX(p: FlowPair): int {
    Truncate(p.curr.x - p.prev.x)
  }

  function DeltaY(p: FlowPair): int {
    Truncate(p.curr.y - p.prev.y)
  }

  /** `x_sum + y_sum`, with both sums starting at zero. */
  function Total(ps: seq<FlowPair>): (n: nat)
    decreases |ps|
  {
    if ps == [] then 0 else Abs(DeltaX(ps[0])) + Abs(DeltaY(ps[0])) + Total(ps[1..])
  }

  /** Independent reference: the exact distance travelled by the points, in
      the L1 norm, before any truncation. */
  function Travel(ps: seq<FlowPair>): real
    decreases |ps|
  {
    if ps == [] then 0.0
    else RealAbs(ps[0].curr.x - ps[0].prev.x) + RealAbs(ps[0].curr.y - ps[0].prev.y) + Travel(ps[1..])
  }

  /** Truncating each coordinate loses less than one unit per coordinate: the
      total never exceeds the exact travel and falls short of it by less than
      two units per point. */
  lemma {:induction false} TotalApproximatesTravel(ps: seq<FlowPair>)
    ensures Total(ps) as real <= Travel(ps)
    ensures ps != [] ==> Travel(ps) < Total(ps) as real + 2.0 * |ps| as real
    decreases |ps|
  {
    if ps != [] {
      TotalApproximatesTravel(ps[1..]);
      TruncatedMagnitude(ps[0].curr.x - ps[0].prev.x);
      TruncatedMagnitude(ps[0].curr.y - ps[0].prev.y);
    }
  }

  lemma TruncatedMagnitude(r: real)
    ensures Abs(Truncate(r)) as real <= RealAbs(r) < Abs(Truncate(r)) as real + 1.0
  {
  }

  /** The optical-flow bookkeeping: whether the point set must be reseeded,
      and whether the previous frame left any points to track. */
  datatype Tracker = Tracker(needToInit: bool, tracking: bool)

  /** At start-up the point set has to be seeded. */
  const Start: Tracker := Tracker(true, false)

  /** One frame's inputs: whether the activity is waiting for feedback, the
      flow pairs of the tracked points, and whether feature detection on this
      frame found any points to track next. */
  datatype Input = Input(waiting: bool, pairs: seq<FlowPair>, featuresFound: bool)

  datatype Out = Out(tracker: Tracker, movement: Option<int>)

  /** One frame of motion aggregation, including the main loop's waiting gate
      and its hand-over of this frame's points to the next frame. */
  function Step(tr: Tracker, input: Input): (r: Out)
    ensures input.waiting ==> r == Out(Tracker(true, false), None)
    ensures !input.waiting && tr.needToInit ==> r == Out(Tracker(false, input.featuresFound), None)
    ensures r.movement.Some? <==>
      !input.waiting && !tr.needToInit && tr.tracking && Total(input.pairs) > Threshold
    ensures r.movement.Some? ==>
      r.movement.value == Total(input.pairs) - Offset && r.movement.value > Threshold - Offset
    ensures !input.waiting ==> !r.tracker.needToInit
    ensures !input.waiting && !tr.needToInit ==>
      r.tracker == Tracker(false, tr.tracking && input.featuresFound)
  {
    if input.waiting then Out(Tracker(true, false), None)
    else if tr.needToInit then Out(Tracker(false, input.featuresFound), None)
    else if !tr.tracking then Out(Tracker(false, false), None)
    else
      var total := Total(input.pairs);
      Out(Tracker(false, input.featuresFound), if total > Threshold then Some(total - Offset) else None)
  }

  /** The movements reported over a run of frames, and the final tracker. */
  datatype Trace = Trace(tracker: Tracker, movements: seq<int>)

  function Run(tr: Tracker, inputs: seq<Input>): Trace
    decreases |inputs|
  {
    if inputs == [] then Trace(tr, [])
    else
      var out := Step(tr, inputs[0]);
      var rest := Run(out.tracker, inputs[1..]);
      Trace(rest.tracker, (if out.movement.Some? then [out.movement.value] else []) + rest.movements)
  }

  /** If seeding found no points, nothing is ever tracked again and no
      movement is ever reported until the activity next waits for feedback. */
  lemma {:induction false} StalledTrackerStaysStalled(inputs: seq<Input>)
    requires forall i :: 0 <= i < |inputs| ==> !inputs[i].waiting
    ensures Run(Tracker(false, false), inputs) == Trace(Tracker(false, false), [])
    decreases |inputs|
  {
    if inputs != [] {
      StalledTrackerStaysStalled(inputs[1..]);
    }
  }

  /** Every reported movement is above the threshold minus the offset. */
  lemma {:induction false} ReportedMovementsAboveFloor(tr: Tracker, inputs: seq<Input>)
    ensures forall k :: 0 <= k < |Run(tr, inputs).movements| ==>
      Run(tr, inputs).movements[k] > Threshold - Offset
    decreases |inputs|
  {
    if inputs != [] {
      ReportedMovementsAboveFloor(Step(tr, inputs[0]).tracker, inputs[1..]);
    }
  }

  /** At the boundary: a total of exactly 778000 is not reported; 778001 is,
      as -51999. */
  lemma ThresholdIsStrict(pairs: seq<FlowPair>)
    requires Total(pairs) == Threshold || Total(pairs) == Threshold + 1
    ensures var r := Step(Tracker(false, true), Input(false, pairs, true));
            (Total(pairs) == Threshold ==> r.movement == None) &&
            (Total(pairs) == Threshold + 1 ==> r.movement == Some(-51999))
  {
  }
}

=== FILE: novelty.dfy ===
/** Novelty detection (`novelty`): a six-channel exponential moving average of
    the behaviour features, a symmetric chi-square-like distance between its
    old and new values, and a report whenever that distance exceeds one. The
    frame counter `t` measures how long behaviour has been stable; the
    published score is `dist * sqrt(t)` with the counter taken before reset. */
module Novelty {

  /** Smoothing factor of the moving average. */
  const Mu: real := 0.1

  /** Guard against a zero denominator in the distance. */
  const Eps: real := 0.00000001

  /** Distances above this report a novelty. */
  const Threshold: real := 1.0

  /** Feature channels: look right, left, up, down, contact, face count. */
  const Channels: nat := 6

  /** One channel of the moving average. */
  function Blend(x: real, e: real): (r: real)
    ensures x <= e ==> x <= r <= e
    ensures e <= x ==> e <= r <= x
    ensures r - e == Mu * (x - e)
  {
    Mu * x + (1.0 - Mu) * e
  }

  /** The moving average after one more sample vector. */
  function Smooth(x: seq<real>, ema: seq<real>): (r: seq<real>)
    requires |x| == |ema|
    ensures |r| == |ema|
    ensures forall j :: 0 <= j < |r| ==> r[j] == Blend(x[j], ema[j])
    ensures forall j :: 0 <= j < |r| ==> r[j] - ema[j] == Mu * (x[j] - ema[j])
    ensures forall j :: 0 <= j < |r| ==>
      (x[j] <= ema[j] ==> x[j] <= r[j] <= ema[j]) && (ema[j] <= x[j] ==> ema[j] <= r[j] <= x[j])
  {
    seq(|ema|, j requires 0 <= j < |ema| => Blend(x[j], ema[j]))
  }

  /** One channel's contribution to the distance. */
  function Term(now: real, before: real): (r: real)
    ensures r >= 0.0
    ensures now == before ==> r == 0.0
  {
    var diff, sum := now - before, now + before;
    Square(diff);
    Square(sum);
    QuotientNonNegative(2.0 * diff * diff, Eps + sum * sum);
    2.0 * diff * diff / (Eps + sum * sum)
  }

  lemma Square(a: real)
    ensures a * a >= 0.0
  {
  }

  lemma QuotientNonNegative(a: real, b: real)
    requires a >= 0.0 && b > 0.0
    ensures a / b >= 0.0
  {
  }

  /** Sum of the per-channel contributions. */
  function Dist(now: seq<real>, before: seq<real>): (r: real)
    requires |now| == |before|
    ensures r >= 0.0
    decreases |now|
  {
    if now == [] then 0.0 else Term(now[0], before[0]) + Dist(now[1..], before[1..])
  }

  /** The distance is at least any single channel's contribution. */
  lemma {:induction false} DistAtLeastTerm(now: seq<real>, before: seq<real>, j: nat)
    requires |now| == |before| && j < |now|
    ensures Dist(now, before) >= Term(now[j], before[j])
    decreases j
  {
    if j > 0 {
      DistAtLeastTerm(now[1..], before[1..], j - 1);
    }
  }

  /** The distance is at most the number of channels times a per-channel bound. */
  lemma {:induction false} DistAtMost(now: seq<real>, before: seq<real>, bound: real)
    requires |now| == |before|
    requires forall j :: 0 <= j < |now| ==> Term(now[j], before[j]) <= bound
    ensures Dist(now, before) <= |now| as real * bound
    decreases |now|
  {
    if now != [] {
      DistAtMost(now[1..], before[1..], bound);
    }
  }

  /** Result of one update: the new average and counter, the distance, and
      whether it reported (with the counter value the report was scaled by). */
  datatype Update = Update(ema: seq<real>, t: nat, dist: real, fired: bool, elapsed: nat)

  /** One update of the average with sample `x` and the stability counter `t`. */
  function Step(ema: seq<real>, t: nat, x: seq<real>): (r: Update)
    requires |x| == |ema|
    ensures |r.ema| == |ema|
    ensures forall j :: 0 <= j < |ema| ==> r.ema[j] - ema[j] == Mu * (x[j] - ema[j])
    ensures r.ema == Smooth(x, ema) && r.dist == Dist(r.ema, ema)
    ensures r.dist >= 0.0
    ensures r.fired <==> r.dist > Threshold
    ensures r.fired ==> r.t == 1 && r.elapsed == t
    ensures !r.fired ==> r.t == t + 1
    ensures r.t >= 1
  {
    var next := Smooth(x, ema);
    var dist := Dist(next, ema);
    if dist > Threshold then Update(next, 1, dist, true, t)
    else Update(next, t + 1, dist, false, t)
  }

  /** All-zero sample vector. */
  function Zeros(n: nat): (z: seq<real>)
    ensures |z| == n
    ensures forall j :: 0 <= j < n ==> z[j] == 0.0
  {
    seq(n, j => 0.0)
  }

  /** Decay alone changes a channel by a tenth of its value, which never
      contributes more than 0.02 / 3.61 to the distance. */
  lemma DecayTermIsSmall(e: real)
    ensures Term(Blend(0.0, e), e) <= 0.02 / 3.61
  {
    var now := Blend(0.0, e);
    assert now - e == -0.1 * e;
    assert now + e == 1.9 * e;
    var num := 2.0 * (now - e) * (now - e);
    var den := Eps + (now + e) * (now + e);
    assert num == 0.02 * (e * e);
    assert den == Eps + 3.61 * (e * e);
    assert num * 3.61 <= 0.02 * den;
    DivBound(num, den, 0.02, 3.61);
  }

  lemma DivBound(a: real, b: real, c: real, d: real)
    requires b > 0.0 && d > 0.0 && a * d <= c * b
    ensures a / b <= c / d
  {
    assert a / b == (a * d) / (b * d);
    assert c / d == (c * b) / (b * d);
  }

  /** A sample of all zeros (what a frame without faces feeds in) never
      reports, whatever the average was: the decay it causes is far below the
      threshold, so the counter always advances. */
  lemma DecayNeverReports(ema: seq<real>, t: nat)
    requires |ema| == Channels
    ensures !Step(ema, t, Zeros(Channels)).fired
    ensures Step(ema, t, Zeros(Channels)).t == t + 1
  {
    var next := Smooth(Zeros(Channels), ema);
    forall j | 0 <= j < |next|
      ensures Term(next[j], ema[j]) <= 0.02 / 3.61
    {
      DecayTermIsSmall(ema[j]);
    }
    DistAtMost(next, ema, 0.02 / 3.61);
  }

  /** A channel that had settled near zero (at most 0.01) and now receives a
      sample of at least one reports a novelty by itself. */
  lemma ArrivalTermIsLarge(x: real, e: real)
    requires x >= 1.0 && 0.0 <= e <= 0.01
    ensures Term(Blend(x, e), e) > Threshold
  {
    var now := Blend(x, e);
    assert now - e == 0.1 * (x - e);
    assert now + e == 0.1 * x + 1.9 * e;
    var num := 2.0 * (now - e) * (now - e);
    var den := Eps + (now + e) * (now + e);
    assert num == 0.02 * ((x - e) * (x - e));
    assert den == Eps + (0.1 * x + 1.9 * e) * (0.1 * x + 1.9 * e);
    ArrivalMargin(x, e);
    assert num > den;
  }

  /** The polynomial inequality behind `ArrivalTermIsLarge`. */
  lemma ArrivalMargin(x: real, e: real)
    requires x >= 1.0 && 0.0 <= e <= 0.01
    ensures 0.02 * ((x - e) * (x - e)) > Eps + (0.1 * x + 1.9 * e) * (0.1 * x + 1.9 * e)
  {
    // Expanding both sides leaves 0.01 x^2 - 0.42 x e - 3.59 e^2 > Eps.
    assert x * e <= 0.01 * x by {
      MulLe(x, e, 0.01);
    }
    assert x <= x * x by {
      MulLe(x, 1.0, x);
    }
    assert e * e <= 0.0001 by {
      MulLe(e, e, 0.01);
    }
    assert 0.02 * ((x - e) * (x - e)) - (0.1 * x + 1.9 * e) * (0.1 * x + 1.9 * e)
        == 0.01 * (x * x) - 0.42 * (x * e) - 3.59 * (e * e);
  }

  lemma MulLe(a: real, b: real, c: real)
    requires a >= 0.0 && b <= c
    ensures a * b <= a * c
  {
  }

  /** The scenario of a face count jumping while the face-count channel had
      settled near zero: the update reports, and the counter restarts at one. */
  lemma ArrivalReports(ema: seq<real>, t: nat, x: seq<real>, j: nat)
    requires |x| == |ema| && j < |ema|
    requires x[j] >= 1.0 && 0.0 <= ema[j] <= 0.01
    ensures Step(ema, t, x).fired
    ensures Step(ema, t, x).t == 1 && Step(ema, t, x).elapsed == t
  {
    var next := Smooth(x, ema);
    ArrivalTermIsLarge(x[j], ema[j]);
    DistAtLeastTerm(next, ema, j);
  }
}

=== FILE: optional.dfy ===
/** An optional value: an event that may or may not be emitted. */
module Optional {

  datatype Option<+T> = None | Some(value: T)
}

=== FILE: smile.dfy ===
/** Smile detection (`smileDetector`): while the subject keeps eye contact, a
    frame whose mouth-corner line does not cross the lip line counts towards a
    smile, and the sixth such frame since the last reset reports one. */
module Smile {
  import opened Debounce
  import opened Geometry

  /** The four mouth landmarks of one face. */
  datatype Mouth = Mouth(up: Point, down: Point, right: Point, left: Point)

  /** The segment test between the corner line (left to right) and the lip
      line (top to bottom). */
  function MouthCrossing(m: Mouth): (c: Crossing)
    ensures c.Determined? ==> (c.crosses <==> SegmentsMeet(m.left, m.right, m.up, m.down))
  {
    SegmentsCross(m.left, m.right, m.up, m.down)
  }

  /** What the source's boolean test reports. With a zero denominator its
      floating-point division yields an infinity or NaN; the range check then
      fails, because an infinite parameter lies outside [0,1] and a NaN fails
      every comparison, so it reports no crossing. */
  function Reported(c: Crossing): (b: bool)
    ensures b <==> c == Determined(true)
  {
    match c
    case Degenerate => false
    case Determined(crosses) => crosses
  }

  /** A frame counts towards a smile when contact holds and the two mouth lines
      are not seen to cross (lines that are parallel count as not crossing). */
  function Qualifies(contact: bool, m: Mouth): (q: bool)
    ensures q <==> (contact &&
      !(Denominator(m.left, m.right, m.up, m.down) != 0.0 && SegmentsMeet(m.left, m.right, m.up, m.down)))
    ensures Denominator(m.left, m.right, m.up, m.down) == 0.0 ==> (q <==> contact)
  {
    contact && !Reported(MouthCrossing(m))
  }

  /** One call of `smileDetector` on the shared smile counter. */
  function SmileStep(count: nat, contact: bool, m: Mouth): (r: Tick)
    ensures r == Advance(count, contact &&
      !(Denominator(m.left, m.right, m.up, m.down) != 0.0 && SegmentsMeet(m.left, m.right, m.up, m.down)))
    ensures count <= Limit ==> r.count <= Limit
    ensures r.fired ==> contact && r.count == 0
  {
    Advance(count, Qualifies(contact, m))
  }
}

=== FILE: vision.dfy ===
/** The frame loop of the vision node: one explicit state record holds
    everything the source keeps in globals (gaze and smile counters, contact,
    previous head size, the moving average and its stability counter, the
    motion tracker). Each frame runs the motion step, then for every detected
    face `lookAt`, `sizeHead`, `smileDetector` and `novelty` in that order over
    the shared state; a frame without faces only decays the moving average. */
module Vision {
  import opened Optional
  import opened Debounce
  import Gaze
  import Smile
  import HeadSize
  import Novelty
  import Motion

  /** What the landmark model yields for one face, after the floating-point
      geometry: the two head-pose ratios, the integer head size and the mouth. */
  datatype Face = Face(eastWest: Gaze.Ratio, southNorth: Gaze.Ratio, size: int, mouth: Smile.Mouth)

  datatype Frame = Frame(motion: Motion.Input, faces: seq<Face>)

  /** The node's publications, in the order they are made. */
  datatype Event =
    | GazeEvent(text: string)
    | SmileEvent
    | SizeEvent(size: int)
    | NoveltyEvent(dist: real, elapsed: nat)
    | MotionEvent(magnitude: int)

  datatype State = State(
    gaze: Gaze.Counters,
    smile: nat,
    contact: bool,
    prevSize: int,
    ema: seq<real>,
    t: nat,
    contacts: nat,  // number of landmark sets recorded as eye-contact samples
    tracker: Motion.Tracker)

  /** Start-up values: contact true, every counter zero, previous size zero,
      the moving average all ones, the stability counter one, and the motion
      tracker waiting to be seeded. */
  const Init: State :=
    State(Gaze.Zero, 0, true, 0, [1.0, 1.0, 1.0, 1.0, 1.0, 1.0], 1, 0, Motion.Start)

  /** The state invariant: counters in 0..5, six average channels, all
      nonnegative, the five flag channels at most one, and t at least one. */
  predicate Valid(st: State) {
    && Gaze.Bounded(st.gaze)
    && st.smile <= Limit
    && |st.ema| == Novelty.Channels
    && (forall j :: 0 <= j < |st.ema| ==> 0.0 <= st.ema[j])
    && (forall j :: 0 <= j < |st.ema| - 1 ==> st.ema[j] <= 1.0)
    && st.t >= 1
  }

  lemma InitIsValid()
    ensures Valid(Init)
  {
  }

  function BoolValue(b: bool): real {
    if b then 1.0 else 0.0
  }

  /** The sample vector of `novelty`: the four direction flags, contact, and
      the number of faces in the frame. */
  function Features(d: Gaze.Directions, contact: bool, faceCount: nat): (x: seq<real>)
    ensures |x| == Novelty.Channels
    ensures forall j :: 0 <= j < |x| ==> 0.0 <= x[j]
    ensures forall j :: 0 <= j < |x| - 1 ==> x[j] <= 1.0
    ensures x[|x| - 1] == faceCount as real
    ensures x[0] == 1.0 <==> d.right
    ensures x[1] == 1.0 <==> d.left
    ensures x[2] == 1.0 <==> d.up
    ensures x[3] == 1.0 <==> d.down
    ensures x[4] == 1.0 <==> contact
  {
    [BoolValue(d.right), BoolValue(d.left), BoolValue(d.up), BoolValue(d.down),
     BoolValue(contact), faceCount as real]
  }

  function Directions(f: Face): Gaze.Directions {
    Gaze.Classify(f.eastWest, f.southNorth)
  }

  function GazeEvents(texts: seq<string>): (es: seq<Event>)
    ensures |es| == |texts|
    ensures forall k :: 0 <= k < |es| ==> es[k] == GazeEvent(texts[k])
  {
    seq(|texts|, k requires 0 <= k < |texts| => GazeEvent(texts[k]))
  }

  predicate NoGazeEvent(es: seq<Event>) {
    forall k :: 0 <= k < |es| ==> !es[k].GazeEvent?
  }

  predicate NoNoveltyEvent(es: seq<Event>) {
    forall k :: 0 <= k < |es| ==> !es[k].NoveltyEvent?
  }

  /** A value published or not, as a list of at most one element. */
  function Published(o: Option<int>): seq<int> {
    if o.Some? then [o.value] else []
  }

  /** The head sizes published among some events, in order. */
  function SizeEvents(es: seq<Event>): seq<int>
    decreases |es|
  {
    if es == [] then []
    else (if es[0].SizeEvent? then [es[0].size] else []) + SizeEvents(es[1..])
  }

  /** The movement magnitudes published among some events, in order. */
  function Movements(es: seq<Event>): seq<int>
    decreases |es|
  {
    if es == [] then []
    else (if es[0].MotionEvent? then [es[0].magnitude] else []) + Movements(es[1..])
  }

  /** The gaze texts published among some events, in order. */
  function GazeTexts(es: seq<Event>): seq<string>
    decreases |es|
  {
    if es == [] then []
    else (if es[0].GazeEvent? then [es[0].text] else []) + GazeTexts(es[1..])
  }

  lemma {:induction false} GazeTextsAppend(a: seq<Event>, b: seq<Event>)
    ensures GazeTexts(a + b) == GazeTexts(a) + GazeTexts(b)
    decreases |a|
  {
    if a == [] {
      assert a + b == b;
    } else {
      var ab := a + b;
      assert ab[0] == a[0] && ab[1..] == a[1..] + b;
      GazeTextsAppend(a[1..], b);
      var head := if a[0].GazeEvent? then [a[0].text] else [];
      assert GazeTexts(ab) == head + GazeTexts(a[1..] + b);
      assert GazeTexts(a) == head + GazeTexts(a[1..]);
    }
  }

  /** Gaze events carry back exactly the texts they were made from. */
  lemma {:induction false} GazeTextsOfGazeEvents(texts: seq<string>)
    ensures GazeTexts(GazeEvents(texts)) == texts
    decreases |texts|
  {
    if texts != [] {
      var es := GazeEvents(texts);
      assert es[1..] == GazeEvents(texts[1..]);
      GazeTextsOfGazeEvents(texts[1..]);
    }
  }

  /** Events without a gaze event carry no gaze text. */
  lemma {:induction false} NoGazeEventNoTexts(es: seq<Event>)
    requires NoGazeEvent(es)
    ensures GazeTexts(es) == []
    decreases |es|
  {
    if es != [] {
      assert !es[0].GazeEvent?;
      NoGazeEventNoTexts(es[1..]);
    }
  }

  lemma SelectionsAppend(a: seq<Event>, b: seq<Event>)
    ensures SizeEvents(a + b) == SizeEvents(a) + SizeEvents(b)
    ensures Movements(a + b) == Movements(a) + Movements(b)
  {
    SizeEventsAppend(a, b);
    MovementsAppend(a, b);
  }

  lemma {:induction false} SizeEventsAppend(a: seq<Event>, b: seq<Event>)
    ensures SizeEvents(a + b) == SizeEvents(a) + SizeEvents(b)
    decreases |a|
  {
    if a == [] {
      assert a + b == b;
    } else {
      var ab := a + b;
      assert ab[0] == a[0] && ab[1..] == a[1..] + b;
      SizeEventsAppend(a[1..], b);
      var head := if a[0].SizeEvent? then [a[0].size] else [];
      assert SizeEvents(ab) == head + SizeEvents(a[1..] + b);
      assert SizeEvents(a) == head + SizeEvents(a[1..]);
    }
  }

  lemma {:induction false} MovementsAppend(a: seq<Event>, b: seq<Event>)
    ensures Movements(a + b) == Movements(a) + Movements(b)
    decreases |a|
  {
    if a == [] {
      assert a + b == b;
    } else {
      var ab := a + b;
      assert ab[0] == a[0] && ab[1..] == a[1..] + b;
      MovementsAppend(a[1..], b);
      var head := if a[0].MotionEvent? then [a[0].magnitude] else [];
      assert Movements(ab) == head + Movements(a[1..] + b);
      assert Movements(a) == head + Movements(a[1..]);
    }
  }

  /** Events that are all gaze texts carry no size and no movement. */
  lemma {:induction false} GazeOnlySelectsNothing(es: seq<Event>)
    requires forall k :: 0 <= k < |es| ==> es[k].GazeEvent?
    ensures SizeEvents(es) == [] && Movements(es) == []
    decreases |es|
  {
    if es != [] {
      GazeOnlySelectsNothing(es[1..]);
    }
  }

  datatype Step = Step(state: State, events: seq<Event>)

  /** One face of a frame with `faceCount` faces: `lookAt`, `sizeHead`,
      `smileDetector` and `novelty`, in that order, publishing in that order. */
  function FaceStep(st: State, f: Face, faceCount: nat): (r: Step)
    requires |st.ema| == Novelty.Channels
    ensures |r.state.ema| == Novelty.Channels
    ensures Valid(st) ==> Valid(r.state)
    ensures r.state.tracker == st.tracker
    ensures r.state.prevSize == HeadSize.SizeStep(st.prevSize, f.size).prevSize
    ensures r.state.ema == Novelty.Step(st.ema, st.t, Features(Directions(f), r.state.contact, faceCount)).ema
    ensures r.state.contact == Gaze.LookAt(st.gaze, st.smile, Directions(f)).contact
    ensures r.state.t == Novelty.Step(st.ema, st.t, Features(Directions(f), r.state.contact, faceCount)).t
  {
    var d := Directions(f);
    var look := Gaze.LookAt(st.gaze, st.smile, d);
    var size := HeadSize.SizeStep(st.prevSize, f.size);
    var smile := Smile.SmileStep(look.smile, look.contact, f.mouth);
    var nov := Novelty.Step(st.ema, st.t, Features(d, look.contact, faceCount));
    Step(
      State(look.counters, smile.count, look.contact, size.prevSize, nov.ema, nov.t,
            st.contacts + (if look.contact then 1 else 0), st.tracker),
      GazeEvents(look.published) + OtherEvents(size, smile, nov))
  }

  /** What `sizeHead`, `smileDetector` and `novelty` publish for one face. */
  function OtherEvents(size: HeadSize.SizeOut, smile: Tick, nov: Novelty.Update): (es: seq<Event>)
    ensures NoGazeEvent(es)
    ensures nov.fired <==> es != [] && es[|es| - 1].NoveltyEvent?
    ensures !nov.fired ==> NoNoveltyEvent(es)
  {
    (if size.published.Some? then [SizeEvent(size.published.value)] else [])
    + (if smile.fired then [SmileEvent] else [])
    + (if nov.fired then [NoveltyEvent(nov.dist, nov.elapsed)] else [])
  }

  /** A face's size, smile and novelty publications carry its `sizeHead`
      output as their only size, and no movement. */
  lemma OtherEventsSelect(size: HeadSize.SizeOut, smile: Tick, nov: Novelty.Update)
    ensures SizeEvents(OtherEvents(size, smile, nov)) == Published(size.published)
    ensures Movements(OtherEvents(size, smile, nov)) == []
  {
    var sized := if size.published.Some? then [SizeEvent(size.published.value)] else [];
    var smiled := if smile.fired then [SmileEvent] else [];
    var novel := if nov.fired then [NoveltyEvent(nov.dist, nov.elapsed)] else [];
    assert OtherEvents(size, smile, nov) == sized + smiled + novel;
    SelectionsAppend(sized, smiled);
    SelectionsAppend(sized + smiled, novel);
    SelectsSingle(sized);
    SelectsSingle(smiled);
    SelectsSingle(novel);
  }

  /** A face publishes its size exactly when `sizeHead` does, with that
      value, and a smile exactly when the smile counter fires. */
  lemma OtherEventsPublish(size: HeadSize.SizeOut, smile: Tick, nov: Novelty.Update)
    ensures var es := OtherEvents(size, smile, nov);
            && (forall v :: SizeEvent(v) in es <==> size.published == Some(v))
            && (SmileEvent in es <==> smile.fired)
  {
    var es := OtherEvents(size, smile, nov);
    if size.published.Some? {
      assert es[0] == SizeEvent(size.published.value);
    }
    if smile.fired {
      assert SmileEvent in es by {
        if size.published.Some? {
          assert es[1] == SmileEvent;
        } else {
          assert es[0] == SmileEvent;
        }
      }
    }
  }

  /** The sizes and movements one face publishes: its `sizeHead` output, and
      no movement. */
  lemma FaceSelections(st: State, f: Face, faceCount: nat)
    requires |st.ema| == Novelty.Channels
    ensures var r := FaceStep(st, f, faceCount);
            && SizeEvents(r.events) == Published(HeadSize.SizeStep(st.prevSize, f.size).published)
            && Movements(r.events) == []
  {
    var d := Directions(f);
    var look := Gaze.LookAt(st.gaze, st.smile, d);
    var size := HeadSize.SizeStep(st.prevSize, f.size);
    var smile := Smile.SmileStep(look.smile, look.contact, f.mouth);
    var nov := Novelty.Step(st.ema, st.t, Features(d, look.contact, faceCount));
    GazeOnlySelectsNothing(GazeEvents(look.published));
    OtherEventsSelect(size, smile, nov);
    SelectionsAppend(GazeEvents(look.published), OtherEvents(size, smile, nov));
  }

  /** What a list of at most one event contributes. */
  lemma SelectsSingle(es: seq<Event>)
    requires |es| <= 1
    ensures SizeEvents(es) == (if es != [] && es[0].SizeEvent? then [es[0].size] else [])
    ensures Movements(es) == (if es != [] && es[0].MotionEvent? then [es[0].magnitude] else [])
  {
    if es != [] {
      assert es[1..] == [];
    }
  }

  /** A face publishes exactly the gaze texts `lookAt` produced, a smile
      exactly when `smileDetector` fires, and a novelty carrying the distance
      and the stability counter it ends exactly when `novelty` reports. */
  lemma FacePublishes(st: State, f: Face, faceCount: nat)
    requires |st.ema| == Novelty.Channels
    ensures var r := FaceStep(st, f, faceCount);
            var look := Gaze.LookAt(st.gaze, st.smile, Directions(f));
            var nov := Novelty.Step(st.ema, st.t, Features(Directions(f), look.contact, faceCount));
            && GazeTexts(r.events) == look.published
            && (SmileEvent in r.events <==> Smile.SmileStep(look.smile, look.contact, f.mouth).fired)
            && (NoveltyEvent(nov.dist, st.t) in r.events <==> nov.fired)
  {
    var d := Directions(f);
    var look := Gaze.LookAt(st.gaze, st.smile, d);
    var size := HeadSize.SizeStep(st.prevSize, f.size);
    var smile := Smile.SmileStep(look.smile, look.contact, f.mouth);
    var nov := Novelty.Step(st.ema, st.t, Features(d, look.contact, faceCount));
    assert FaceStep(st, f, faceCount).events == GazeEvents(look.published) + OtherEvents(size, smile, nov);
    assert nov.fired ==> nov.elapsed == st.t;
    PublicationsOfFace(look.published, size, smile, nov);
  }

  /** What the gaze texts followed by the size, smile and novelty
      publications contain. */
  lemma PublicationsOfFace(texts: seq<string>, size: HeadSize.SizeOut, smile: Tick, nov: Novelty.Update)
    ensures var es := GazeEvents(texts) + OtherEvents(size, smile, nov);
            && GazeTexts(es) == texts
            && (SmileEvent in es <==> smile.fired)
            && (NoveltyEvent(nov.dist, nov.elapsed) in es <==> nov.fired)
  {
    var gazeEvents := GazeEvents(texts);
    var others := OtherEvents(size, smile, nov);
    GazeTextsAppend(gazeEvents, others);
    GazeTextsOfGazeEvents(texts);
    NoGazeEventNoTexts(others);
    OtherEventsPublish(size, smile, nov);
    OtherEventsNovelty(size, smile, nov);
    InAppendRight(gazeEvents, others, SmileEvent);
    InAppendRight(gazeEvents, others, NoveltyEvent(nov.dist, nov.elapsed));
  }

  /** An event that is not a gaze text occurs among a face's publications
      exactly when it occurs among its size, smile and novelty ones. */
  lemma InAppendRight(gazeEvents: seq<Event>, others: seq<Event>, e: Event)
    requires forall k :: 0 <= k < |gazeEvents| ==> gazeEvents[k].GazeEvent?
    requires !e.GazeEvent?
    ensures e in gazeEvents + others <==> e in others
  {
    if e in gazeEvents + others {
      var k :| 0 <= k < |gazeEvents + others| && (gazeEvents + others)[k] == e;
      assert k >= |gazeEvents|;
      assert others[k - |gazeEvents|] == e;
    }
  }

  /** The size, smile and novelty publications contain the novelty of the
      update, with its pre-reset counter, exactly when the update reported. */
  lemma OtherEventsNovelty(size: HeadSize.SizeOut, smile: Tick, nov: Novelty.Update)
    ensures NoveltyEvent(nov.dist, nov.elapsed) in OtherEvents(size, smile, nov) <==> nov.fired
  {
    var es := OtherEvents(size, smile, nov);
    if nov.fired {
      assert es[|es| - 1] == NoveltyEvent(nov.dist, nov.elapsed);
    }
  }

  /** Contact survives `lookAt` exactly when no direction fired, i.e. when the
      face published no gaze text; exactly then is its landmark set recorded
      as a contact sample. */
  lemma FaceContact(st: State, f: Face, faceCount: nat)
    requires |st.ema| == Novelty.Channels
    ensures var r := FaceStep(st, f, faceCount);
            && (r.state.contact <==> NoGazeEvent(r.events))
            && r.state.contacts == st.contacts + (if r.state.contact then 1 else 0)
    ensures var r := FaceStep(st, f, faceCount);
            r.state.contact <==>
              forall dir :: !Advance(Gaze.Get(st.gaze, dir), Gaze.Holds(Directions(f), dir)).fired
  {
    var d := Directions(f);
    var look := Gaze.LookAt(st.gaze, st.smile, d);
    var size := HeadSize.SizeStep(st.prevSize, f.size);
    var smile := Smile.SmileStep(look.smile, look.contact, f.mouth);
    var nov := Novelty.Step(st.ema, st.t, Features(d, look.contact, faceCount));
    Gaze.LookAtPublishes(st.gaze, st.smile, d);
    var gazeEvents := GazeEvents(look.published);
    NoGazeEventSplits(gazeEvents, OtherEvents(size, smile, nov));
    if look.published != [] {
      assert gazeEvents[0].GazeEvent?;
    }
  }

  /** A face with any direction flag raised zeroes the smile counter in
      `lookAt`; `smileDetector` then counts this very face if it qualifies, so
      the counter ends at one or zero. */
  lemma GazeResetsSmile(st: State, f: Face, faceCount: nat)
    requires |st.ema| == Novelty.Channels
    requires Gaze.AnyHolds(Directions(f))
    ensures var r := FaceStep(st, f, faceCount);
            r.state.smile == (if Smile.Qualifies(r.state.contact, f.mouth) then 1 else 0)
  {
  }

  /** Each face either reports a novelty last, scaled by the stability counter
      it ends, and restarts that counter at one, or reports none and advances
      the counter. */
  lemma FaceNovelty(st: State, f: Face, faceCount: nat)
    requires |st.ema| == Novelty.Channels
    ensures var r := FaceStep(st, f, faceCount);
            || (r.state.t == 1 && r.events != [] && r.events[|r.events| - 1].NoveltyEvent? &&
                r.events[|r.events| - 1].elapsed == st.t)
            || (r.state.t == st.t + 1 && NoNoveltyEvent(r.events))
    ensures var r := FaceStep(st, f, faceCount);
            var nov := Novelty.Step(st.ema, st.t, Features(Directions(f), r.state.contact, faceCount));
            && (nov.dist > Novelty.Threshold ==>
                  r.state.t == 1 && r.events != [] && r.events[|r.events| - 1] == NoveltyEvent(nov.dist, st.t))
            && (nov.dist <= Novelty.Threshold ==> r.state.t == st.t + 1 && NoNoveltyEvent(r.events))
  {
    var d := Directions(f);
    var look := Gaze.LookAt(st.gaze, st.smile, d);
    var size := HeadSize.SizeStep(st.prevSize, f.size);
    var smile := Smile.SmileStep(look.smile, look.contact, f.mouth);
    var nov := Novelty.Step(st.ema, st.t, Features(d, look.contact, faceCount));
    var gazeEvents := GazeEvents(look.published);
    var others := OtherEvents(size, smile, nov);
    assert FaceStep(st, f, faceCount).events == gazeEvents + others;
    assert FaceStep(st, f, faceCount).state.t == nov.t;
    if nov.fired {
      assert (gazeEvents + others)[|gazeEvents + others| - 1] == others[|others| - 1];
    } else {
      forall k | 0 <= k < |gazeEvents + others| ensures !(gazeEvents + others)[k].NoveltyEvent? {
        if k >= |gazeEvents| {
          assert (gazeEvents + others)[k] == others[k - |gazeEvents|];
        }
      }
    }
  }

  lemma NoGazeEventSplits(a: seq<Event>, b: seq<Event>)
    ensures NoGazeEvent(a + b) <==> NoGazeEvent(a) && NoGazeEvent(b)
  {
    if NoGazeEvent(a) && NoGazeEvent(b) {
      forall k | 0 <= k < |a + b| ensures !(a + b)[k].GazeEvent? {
        if k >= |a| {
          assert (a + b)[k] == b[k - |a|];
        }
      }
    }
    if NoGazeEvent(a + b) {
      forall k | 0 <= k < |a| ensures !a[k].GazeEvent? {
        assert (a + b)[k] == a[k];
      }
      forall k | 0 <= k < |b| ensures !b[k].GazeEvent? {
        assert (a + b)[|a| + k] == b[k];
      }
    }
  }

  /** The faces of one frame, in detection order, over the shared state. All
      faces share the remembered head size: the sizes a frame publishes, and
      the size it leaves behind, are those of `sizeHead` run over every face's
      size in turn. No face publishes a movement. */
  function FacesStep(st: State, fs: seq<Face>, faceCount: nat): (r: Step)
    requires |st.ema| == Novelty.Channels
    ensures |r.state.ema| == Novelty.Channels
    ensures Valid(st) ==> Valid(r.state)
    ensures r.state.tracker == st.tracker
    ensures SizeEvents(r.events) == HeadSize.PublishedDuring(st.prevSize, Sizes(fs))
    ensures r.state.prevSize == HeadSize.SizeAfter(st.prevSize, Sizes(fs))
    ensures Movements(r.events) == []
    decreases |fs|
  {
    if fs == [] then Step(st, [])
    else
      var first := FaceStep(st, fs[0], faceCount);
      var rest := FacesStep(first.state, fs[1..], faceCount);
      FaceSelections(st, fs[0], faceCount);
      SelectionsAppend(first.events, rest.events);
      SizesSplit(fs);
      Step(rest.state, first.events + rest.events)
  }

  lemma SizesSplit(fs: seq<Face>)
    requires fs != []
    ensures Sizes(fs)[0] == fs[0].size && Sizes(fs)[1..] == Sizes(fs[1..])
  {
  }

  /** The head sizes of a frame's faces, in detection order. */
  function Sizes(fs: seq<Face>): (sizes: seq<int>)
    ensures |sizes| == |fs|
    ensures forall i :: 0 <= i < |fs| ==> sizes[i] == fs[i].size
  {
    seq(|fs|, i requires 0 <= i < |fs| => fs[i].size)
  }

  /** The main loop's own copy of the average update for a frame without
      faces: an all-zero sample and nothing published. Because decay alone
      never crosses the threshold, its reset branch is dead and the stability
      counter always advances. */
  function NoFaceStep(st: State): (r: State)
    requires |st.ema| == Novelty.Channels
    ensures r == st.(ema := r.ema, t := st.t + 1)
    ensures |r.ema| == Novelty.Channels
    ensures forall j :: 0 <= j < |r.ema| ==> r.ema[j] == (1.0 - Novelty.Mu) * st.ema[j]
    ensures Valid(st) ==> Valid(r)
  {
    var nov := Novelty.Step(st.ema, st.t, Novelty.Zeros(Novelty.Channels));
    Novelty.DecayNeverReports(st.ema, st.t);
    st.(ema := nov.ema, t := nov.t)
  }

  /** One frame: motion first, then the faces or the no-face decay. */
  function FrameStep(st: State, fr: Frame): (r: Step)
    requires |st.ema| == Novelty.Channels
    ensures |r.state.ema| == Novelty.Channels
    ensures Valid(st) ==> Valid(r.state)
    ensures r.state.tracker == Motion.Step(st.tracker, fr.motion).tracker
    ensures fr.faces == [] ==>
      r.state == st.(tracker := r.state.tracker, ema := r.state.ema, t := st.t + 1) &&
      forall k :: 0 <= k < |r.events| ==> r.events[k].MotionEvent?
    ensures Motion.Step(st.tracker, fr.motion).movement.Some? ==>
      r.events != [] && r.events[0] == MotionEvent(Motion.Step(st.tracker, fr.motion).movement.value)
    ensures fr.faces != [] ==>
      r.state == FacesStep(st.(tracker := Motion.Step(st.tracker, fr.motion).tracker), fr.faces, |fr.faces|).state
    ensures fr.faces == [] ==>
      r.state == NoFaceStep(st.(tracker := Motion.Step(st.tracker, fr.motion).tracker))
  {
    var m := Motion.Step(st.tracker, fr.motion);
    var moved := if m.movement.Some? then [MotionEvent(m.movement.value)] else [];
    var st1 := st.(tracker := m.tracker);
    assert Valid(st) ==> Valid(st1);
    if fr.faces == [] then
      Step(NoFaceStep(st1), moved)
    else
      var faces := FacesStep(st1, fr.faces, |fr.faces|);
      Step(faces.state, moved + faces.events)
  }

  /** A run of frames. */
  function Run(st: State, frames: seq<Frame>): (r: Step)
    requires |st.ema| == Novelty.Channels
    ensures |r.state.ema| == Novelty.Channels
    decreases |frames|
  {
    if frames == [] then Step(st, [])
    else
      var first := FrameStep(st, frames[0]);
      var rest := Run(first.state, frames[1..]);
      Step(rest.state, first.events + rest.events)
  }

  /** A frame publishes its movement, if any, and then everything its faces
      publish, in detection order; nothing else. */
  lemma FrameEvents(st: State, fr: Frame)
    requires |st.ema| == Novelty.Channels
    ensures var m := Motion.Step(st.tracker, fr.motion);
            var moved := if m.movement.Some? then [MotionEvent(m.movement.value)] else [];
            FrameStep(st, fr).events ==
              if fr.faces == [] then moved
              else moved + FacesStep(st.(tracker := m.tracker), fr.faces, |fr.faces|).events
  {
  }

  /** A frame publishes the movement of its motion step, and the sizes of its
      faces as `sizeHead` sees them in turn. */
  lemma FramePublishes(st: State, fr: Frame)
    requires |st.ema| == Novelty.Channels
    ensures var r := FrameStep(st, fr);
            && Movements(r.events) == Published(Motion.Step(st.tracker, fr.motion).movement)
            && SizeEvents(r.events) == HeadSize.PublishedDuring(st.prevSize, Sizes(fr.faces))
            && r.state.prevSize == HeadSize.SizeAfter(st.prevSize, Sizes(fr.faces))
  {
    var m := Motion.Step(st.tracker, fr.motion);
    var moved := if m.movement.Some? then [MotionEvent(m.movement.value)] else [];
    var st1 := st.(tracker := m.tracker);
    SelectsSingle(moved);
    if fr.faces != [] {
      var faces := FacesStep(st1, fr.faces, |fr.faces|);
      SelectionsAppend(moved, faces.events);
    }
  }

  /** The motion inputs of a run of frames. */
  function MotionInputs(frames: seq<Frame>): (inputs: seq<Motion.Input>)
    ensures |inputs| == |frames|
    ensures forall i :: 0 <= i < |frames| ==> inputs[i] == frames[i].motion
  {
    seq(|frames|, i requires 0 <= i < |frames| => frames[i].motion)
  }

  /** Faces never touch motion: the movements the node publishes over a run,
      and the tracker it ends with, are those of the motion steps alone. */
  lemma {:induction false} MovementsOfRun(st: State, frames: seq<Frame>)
    requires |st.ema| == Novelty.Channels
    ensures Movements(Run(st, frames).events) == Motion.Run(st.tracker, MotionInputs(frames)).movements
    ensures Run(st, frames).state.tracker == Motion.Run(st.tracker, MotionInputs(frames)).tracker
    decreases |frames|
  {
    if frames != [] {
      var first := FrameStep(st, frames[0]);
      FramePublishes(st, frames[0]);
      MovementsOfRun(first.state, frames[1..]);
      var rest := Run(first.state, frames[1..]);
      assert Run(st, frames).events == first.events + rest.events;
      SelectionsAppend(first.events, rest.events);
      assert MotionInputs(frames)[1..] == MotionInputs(frames[1..]);
    }
  }

  /** Every movement the node publishes exceeds 778000 - 830000. */
  lemma NodeMovementsAboveFloor(st: State, frames: seq<Frame>)
    requires |st.ema| == Novelty.Channels
    ensures forall k :: 0 <= k < |Movements(Run(st, frames).events)| ==>
      Movements(Run(st, frames).events)[k] > Motion.Threshold - Motion.Offset
  {
    MovementsOfRun(st, frames);
    Motion.ReportedMovementsAboveFloor(st.tracker, MotionInputs(frames));
  }

  /** Once seeding found no points, the node publishes no movement until the
      activity next waits for feedback, however many faces it sees. */
  lemma StalledNodeNeverMoves(st: State, frames: seq<Frame>)
    requires |st.ema| == Novelty.Channels
    requires st.tracker == Motion.Tracker(false, false)
    requires forall i :: 0 <= i < |frames| ==> !frames[i].motion.waiting
    ensures Movements(Run(st, frames).events) == []
    ensures Run(st, frames).state.tracker == Motion.Tracker(false, false)
  {
    MovementsOfRun(st, frames);
    Motion.StalledTrackerStaysStalled(MotionInputs(frames));
  }

  /** The invariant holds from start-up on, whatever the frames. */
  lemma {:induction false} RunPreservesValid(st: State, frames: seq<Frame>)
    requires Valid(st)
    ensures Valid(Run(st, frames).state)
    decreases |frames|
  {
    if frames != [] {
      RunPreservesValid(FrameStep(st, frames[0]).state, frames[1..]);
    }
  }

  /** A run of frames without faces never reports a novelty, and the
      stability counter grows by one per frame. */
  lemma {:induction false} EmptyFramesOnlyDecay(st: State, frames: seq<Frame>)
    requires |st.ema| == Novelty.Channels
    requires forall i :: 0 <= i < |frames| ==> frames[i].faces == []
    ensures NoNoveltyEvent(Run(st, frames).events)
    ensures Run(st, frames).state.t == st.t + |frames|
    decreases |frames|
  {
    if frames != [] {
      var first := FrameStep(st, frames[0]);
      EmptyFramesOnlyDecay(first.state, frames[1..]);
      var rest := Run(first.state, frames[1..]);
      assert Run(st, frames).events == first.events + rest.events;
    }
  }

  /** The direction flags of a frame's faces. */
  function Classified(fs: seq<Face>): (ds: seq<Gaze.Directions>)
    ensures |ds| == |fs|
  {
    if fs == [] then [] else [Directions(fs[0])] + Classified(fs[1..])
  }

  /** The gaze counters are shared by all faces: after a frame they are the
      counters after `lookAt` has seen every face's flags in turn. */
  lemma {:induction false} FacesShareGazeCounters(st: State, fs: seq<Face>, faceCount: nat)
    requires |st.ema| == Novelty.Channels
    ensures FacesStep(st, fs, faceCount).state.gaze == Gaze.CountersAfter(st.gaze, Classified(fs))
    decreases |fs|
  {
    if fs != [] {
      var first := FaceStep(st, fs[0], faceCount);
      FacesShareGazeCounters(first.state, fs[1..], faceCount);
      assert Classified(fs)[1..] == Classified(fs[1..]);
    }
  }

  /** For each face, whether its mouth lines are not seen to cross. */
  function OpenMouths(fs: seq<Face>): (qs: seq<bool>)
    ensures |qs| == |fs|
  {
    if fs == [] then [] else [!Smile.Reported(Smile.MouthCrossing(fs[0].mouth))] + OpenMouths(fs[1..])
  }

  /** While no face looks away, contact holds for every face, every face is
      recorded as a contact sample, the gaze counters stay put, and the smile
      counter is the debounce counter run over the faces whose mouth lines do
      not cross (so, by `Debounce.RunCountsQualifying`, it reports on the sixth
      such face since its last reset). */
  lemma {:induction false} SmileCountsWithoutGaze(st: State, fs: seq<Face>, faceCount: nat)
    requires |st.ema| == Novelty.Channels
    requires forall i :: 0 <= i < |fs| ==> !Gaze.AnyHolds(Directions(fs[i]))
    ensures var r := FacesStep(st, fs, faceCount);
            && r.state.smile == CountAfter(st.smile, OpenMouths(fs))
            && r.state.gaze == st.gaze
            && r.state.contacts == st.contacts + |fs|
            && NoGazeEvent(r.events)
    decreases |fs|
  {
    if fs != [] {
      var first := FaceStep(st, fs[0], faceCount);
      FaceWithoutGaze(st, fs[0], faceCount);
      SmileCountsWithoutGaze(first.state, fs[1..], faceCount);
      assert OpenMouths(fs)[1..] == OpenMouths(fs[1..]);
      var rest := FacesStep(first.state, fs[1..], faceCount);
      assert FacesStep(st, fs, faceCount).events == first.events + rest.events;
      NoGazeEventSplits(first.events, rest.events);
    }
  }

  /** One face that raises no gaze flag: contact holds, the smile counter
      advances on an open mouth, and no gaze text is published. */
  lemma FaceWithoutGaze(st: State, f: Face, faceCount: nat)
    requires |st.ema| == Novelty.Channels
    requires !Gaze.AnyHolds(Directions(f))
    ensures var r := FaceStep(st, f, faceCount);
            && r.state.smile == Advance(st.smile, !Smile.Reported(Smile.MouthCrossing(f.mouth))).count
            && r.state.gaze == st.gaze
            && r.state.contacts == st.contacts + 1
            && NoGazeEvent(r.events)
  {
    var look := Gaze.LookAt(st.gaze, st.smile, Directions(f));
    assert look.contact && look.published == [];
    FaceContact(st, f, faceCount);
  }

  /** When the face-count channel has settled near zero, the first face of a
      frame reports a novelty scaled by the stability counter it ends, and the
      counter restarts at one. */
  lemma FaceArrivalReportsNovelty(st: State, f: Face, faceCount: nat)
    requires |st.ema| == Novelty.Channels
    requires faceCount >= 1 && 0.0 <= st.ema[Novelty.Channels - 1] <= 0.01
    ensures var r := FaceStep(st, f, faceCount);
            r.state.t == 1 && r.events != [] && r.events[|r.events| - 1].NoveltyEvent? &&
            r.events[|r.events| - 1].elapsed == st.t
  {
    var d := Directions(f);
    var look := Gaze.LookAt(st.gaze, st.smile, d);
    Novelty.ArrivalReports(st.ema, st.t, Features(d, look.contact, faceCount), Novelty.Channels - 1);
  }
}
